=== FILE: README.md ===
# Clipboard sync: store server and reconciliation loop, modelled in Dafny

This project models the core of a two-endpoint clipboard synchroniser (a
desktop and a phone). There are two parts:

- the **single-slot store server**, in two copies. `server.py` is the
  standalone server. `clipboard_tray.py` embeds a near-copy whose defaults
  differ. A POST is checked (path, body length, JSON, object, `type`, then
  `data`). An accepted clip replaces the whole persisted slot. A GET on
  `/clip` or `/clip/latest` returns the slot.
- the **sync loop's tick**, also in two copies: `main` in
  `clipboard_sync.py` and `ClipboardSync.sync_loop` in `clipboard_tray.py`.
  The loop keeps `last_local_hash`, `last_server_hash` and `last_source`. On
  each tick it may push the local clip, then may pull the server clip if it
  came from the phone. The tray copy adds `running`, `paused` and a status
  text.

Files and modules:

| file | module | what it holds |
|---|---|---|
| `wrappers.dfy` | `Wrappers` | `Option` |
| `json.dfy` | `JsonValue` | decoded JSON values, Python truthiness, `dict.get`, AttributeError messages, the reply bodies |
| `http.dfy` | `Http` | `Response`, the part of `urlparse(...).path` the handlers rely on, and the GET classification shared by both servers |
| `clip_store.dfy` | `ClipStore` | the store file, `load_store`, and the `ClipboardStore` object whose `Save` is `save_store` |
| `store_server.dfy` | `StoreServer` | `server.py`'s POST validation, `DoGet`/`DoPost`, and the round trip |
| `tray_server.dfy` | `TrayServer` | the embedded server's POST validation and handlers, compared with the standalone ones |
| `sync_engine.dfy` | `SyncEngine` | the tick as a pure `Step`, the `EngineState` object whose `Tick` and `Run` are proved against it, and the tick's properties |
| `tray_sync.dfy` | `TraySync` | the `ClipboardSync` object (`SyncIteration`, the pause and quit menu items, and `Run` over interleaved events), plus the status text |

Inputs stand in for everything the code gets from outside:

- The clipboard read is `Option<LocalClip>`. `None` is the reader's
  `("", "", "")`.
- The push result is a boolean: did the POST answer 200?
- The fetch result is `Option<Json>`. `None` means the fetch failed or the
  reply was not 200.
- The clipboard write result is the message of the exception it raised, if
  any.
- MD5 is a hash function parameter `h`. Where it matters, lemmas require
  `h` to return non-empty strings. The code relies on that: an empty hash
  means "nothing read". The hash taken when the clipboard is read and the
  one recorded after a push are `h` of the same data, so they coincide.
- The clock is an input: an integer `now` for `server.py` and a real number
  for the tray.
- The outcome of saving the file is an input: written, open failed, or
  failed mid-write.

Notable behaviour proved about the code as written:

- Once a tick pulls from the phone, `last_source` stays `"server"` for
  good, and no later tick ever pushes. This holds however the local
  clipboard changes afterwards (`ServerSourceIsSticky`,
  `NeverPushesAfterPull`).
- A failed push is never retried while the clipboard content stays the
  same (`NoRetryOfSameContent`).
- `save_store` opens the file with mode `"w"` before writing. A save that
  fails after the open therefore leaves a truncated file, and the next GET
  answers 404 "No clip available". The POST was still answered 200.

Where the code departs from what its design evidently intends, the model
follows the code:

- The store is meant to let the service restart without losing data
  (the module docstring of `server.py`, line 7). Saving is only best effort,
  and a save that fails after the truncating open loses the slot, as
  described above, while the POST is still answered 200.
- A push is meant to be suppressed only right after the engine's own pull.
  The code never clears `last_source`, so pushes stop for good.
- `mime` is documented as optional (the endpoint list in `server.py`'s
  docstring, line 4). The standalone server defaults it when it is absent
  and also when it is present but falsy (`mime or ...`).
- `source` is documented as optional too (same line), but the loop pulls a
  clip only when its `source` is exactly `"phone"`. A phone post that leaves
  `source` out is stored as `"desktop"` by the standalone server and as
  `"unknown"` by the embedded one, and the desktop never pulls it
  (`SourcelessPostNotPulled`, `SourcelessEmbeddedPostNotPulled`).

## Model

| member | source | states |
|---|---|---|
| `Http.UrlPath` | server.py:61-62 | `urlparse(target).path` for an origin-form target; its lemmas `ClipPathIgnoresQuery` and `GetIgnoresQuery` state that a query or fragment never reaches the compared path |
| `Http.StripParams` | server.py:61-62 | removes `;parameters` from the last path segment; `StripParamsPlain` states that a path without `;` is kept whole |
| `Http.TakeUntil` | server.py:61-62 | the prefix before the first query or fragment separator: a prefix of the target, free of separators, ended by one when shorter |
| `Http.HandleGet` | server.py:60-69 | GET answers 200 with the stored document exactly when the parsed path is `/clip` or `/clip/latest` and the document is truthy; an empty store on a clip path answers 404 "No clip available"; any other path 404 "Not found" |
| `Http.ClipPathIgnoresQuery` | server.py:61-62 | `urlparse(...).path` of a clip path followed by a query or fragment is the clip path itself |
| `Http.GetIgnoresQuery` | server.py:61-68 | a GET with a query string on either alias answers exactly as the bare alias, 200 when the store is truthy and 404 otherwise |
| `ClipStore.LoadStore` | server.py:23-30 | `load_store` returns the decoded document, or a falsy empty object when the file is missing or undecodable, and never fails |
| `ClipStore.ClipboardStore.constructor` | server.py:20 | the store object starts with whatever the store file holds at start-up |
| `ClipStore.ClipboardStore.Save` | server.py:33-38 | a written save replaces the slot wholesale with the payload; a failed open leaves the file unchanged; a failed dump leaves a truncated, undecodable file; no failure reaches the caller |
| `StoreServer.Validate` | server.py:71-107 | a POST raises exactly when it passes path, length and JSON but is not an object; it is accepted exactly when it is an object with a known type and non-null data, and then the slot has exactly five keys with the posted type and data and createdAt the integer time |
| `StoreServer.ValidationOrder` | server.py:71-99 | checks run in order (path 404, length ≤ 0 400 "Missing body", undecodable 400 "Invalid JSON", non-object raises, type 400, missing or null data 400), and a POST is accepted exactly when all pass |
| `StoreServer.TypeCheckedBeforeData` | server.py:94-99 | a bad type with missing data reports the type error |
| `StoreServer.EmptyDataAccepted` | server.py:97-99 | an empty-string `data` is accepted and stored |
| `StoreServer.AcceptedSlot` | server.py:101-107 | an accepted slot has exactly type, data, mime, source and createdAt: type and data as posted, mime as given if truthy else text/plain or image/png, source as given if truthy else "desktop", createdAt the integer time |
| `StoreServer.RepostChangesOnlyCreatedAt` | server.py:101-107 | posting the same body twice stores the same type, data, mime and source; only createdAt differs |
| `StoreServer.DoGet` | server.py:60-69 | the GET handler answers from the current store file as `HandleGet` classifies it, changing nothing |
| `StoreServer.DoPost` | server.py:71-110 | a rejected or crashing POST leaves the store file unchanged and answers its error (or no reply); an accepted one answers 200 `{"status":"ok"}` whatever the save outcome, and the file is as `Save` leaves it |
| `StoreServer.PostThenGet` | server.py:60-110 | after an accepted POST is written, GET on a clip path answers 200 with the stored document, whose type and data are the posted ones |
| `StoreServer.EmptyStoreAnswersNoClip` | server.py:63-67 | a never-written store, or one whose save failed mid-write, answers GET with 404 "No clip available" |
| `TrayServer.SameChecksAsStandalone` | clipboard_tray.py:103-129 | the embedded POST rejects exactly the requests the standalone one rejects, with the same status and message, type before data, and neither saves |
| `TrayServer.ValidateEmbedded` | clipboard_tray.py:103-137 | the embedded POST is accepted exactly when the standalone one is, and the slot has exactly type, data, mime, source and a float timestamp |
| `TrayServer.EmbeddedSlot` | clipboard_tray.py:131-137 | the embedded slot keeps mime and source whenever the key is present (even null), defaults them to the type's MIME and "unknown" only when absent, and stamps a float "timestamp" instead of createdAt |
| `TrayServer.ExplicitNullMimeDiffers` | clipboard_tray.py:134 | an explicit `"mime": null` is stored as null by the embedded server but replaced by the default in the standalone one |
| `TrayServer.DoGet` | clipboard_tray.py:92-101 | the embedded GET is the standalone classification over the temp-directory store |
| `TrayServer.DoPost` | clipboard_tray.py:103-139 | rejections leave the store unchanged; an accepted POST is saved and answered 200 whatever the save outcome |
| `SyncEngine.EngineState.constructor` | clipboard_sync.py:141-143 | the loop starts with empty hashes and an empty last source |
| `SyncEngine.EngineState.Tick` | clipboard_sync.py:146-179 | one loop iteration moves the three variables exactly as `Step` does and returns the exception that ended it early, if any |
| `SyncEngine.EngineState.Run` | clipboard_sync.py:145-188 | a run of iterations moves the variables as the ticks do in order; an exception ends a tick, not the loop |
| `SyncEngine.Step` | clipboard_sync.py:146-179 | a tick starting at "server" does not push; a tick ends at "server" exactly when it started there or completed a pull; an exception keeps the push phase's variables; a tick that ends with no last source changed nothing |
| `SyncEngine.Steps` | clipboard_sync.py:145-188 | ticks in order; a run from a state with no last source in which no tick pushes or completes a pull leaves the variables as they were |
| `SyncEngine.PushPhase` | clipboard_sync.py:148-157 | the push half of a tick; `PushIffGuard` and `PushUpdates` state when it pushes and what it records |
| `SyncEngine.PullPhase` | clipboard_sync.py:160-179 | the pull half of a tick; `PullOnlyFromPhone`, `PullUpdates` and `WriteFailureSkipsPullUpdates` state when it pulls, when it raises and what it records |
| `SyncEngine.PushIffGuard` | clipboard_sync.py:151 | a push is attempted exactly when a clip was read, its hash differs from `last_local_hash`, and `last_source` is not "server"; it pushes that clip |
| `SyncEngine.PushUpdates` | clipboard_sync.py:153-157 | after a push attempt `last_local_hash` is the clip's hash and `last_source` is "local" whatever the result; `last_server_hash` becomes the clip's hash only on success; with no push nothing changes |
| `SyncEngine.NoRetryOfSameContent` | clipboard_sync.py:151-157 | the tick after one that read a clip does not push that same clip, so a failed push is not retried while the content stays |
| `SyncEngine.PullOnlyFromPhone` | clipboard_sync.py:160-167 | a pull starts exactly when a truthy object was fetched whose string data has a new hash and whose source is exactly "phone"; otherwise the pull phase leaves the variables alone, and raises exactly when the fetched value is not an object or its data is not a string |
| `SyncEngine.PullUpdates` | clipboard_sync.py:168-179 | a completed pull sets both hashes to the server hash and `last_source` to "server"; a pull whose clipboard write succeeds, or whose type is other than text or image (nothing written), completes |
| `SyncEngine.WriteFailureSkipsPullUpdates` | clipboard_sync.py:171-188 | when writing the pulled clip raises, the pull's updates are skipped and the push phase's updates of the same tick persist |
| `SyncEngine.NoEchoAfterPull` | clipboard_sync.py:177-179 | after a pull of data d, the next tick reading d finds its hash already recorded and does not push it back |
| `SyncEngine.ServerSourceIsStable` | clipboard_sync.py:151-179 | a tick that starts with `last_source` "server" does not push and ends with `last_source` "server" |
| `SyncEngine.ServerSourceIsSticky` | clipboard_sync.py:151-179 | once `last_source` is "server" it stays so over any run of ticks |
| `SyncEngine.NeverPushesAfterPull` | clipboard_sync.py:151-157 | once `last_source` is "server", no later tick of any run pushes |
| `SyncEngine.PushBody` | clipboard_sync.py:92-97 | the body `push_to_server` posts; `PushIsAccepted` states the server accepts it and stores it with source "desktop" |
| `SyncEngine.Fetched` | clipboard_sync.py:79-87 | `fetch_server_clip`: the body of a 200 reply and nothing otherwise; `OwnPushNotPulledBack` and `PhonePostIsPulled` use it over `HandleGet` |
| `SyncEngine.PushIsAccepted` | clipboard_sync.py:90-97 | what `push_to_server` posts passes the server's checks and is stored with source "desktop" |
| `SyncEngine.OwnPushNotPulledBack` | clipboard_sync.py:79-108 | the desktop's own push, fetched back from either clip path, is not pulled: the pull phase leaves the variables as the push phase left them |
| `SyncEngine.PhonePostIsPulled` | clipboard_sync.py:160-179 | a text clip the phone posts is pulled by the desktop's next tick whose server hash differs, leaving both hashes at its hash and `last_source` "server" |
| `SyncEngine.SourcelessPostNotPulled` | server.py:101-107 | a post without `source` is accepted and stored with source "desktop", and the loop's pull guard (clipboard_sync.py:167) never pulls it back, from any state |
| `SyncEngine.SourcelessBody` | server.py:4 | a post body with only type and data, `source` left out as the endpoint documentation allows |
| `TraySync.CleanIterationStatus` | clipboard_tray.py:277-308 | an iteration ending without exception leaves a status containing "..." |
| `TraySync.StatusAfter` | clipboard_tray.py:278-313 | the status at the end of a pass; `CleanIterationStatus`, `ErrorIterationStatus` and `FailedPushStatusStays` state its value |
| `TraySync.ErrorStatus` | clipboard_tray.py:313 | "Error: " and the first 30 characters of the message; `ErrorIterationStatus` states it exactly |
| `TraySync.TypeLabel` | clipboard_tray.py:302 | `str()` of the pulled type in "Received <type> ✓", exact for strings, null, booleans and integers |
| `TraySync.ErrorIterationStatus` | clipboard_tray.py:312-313 | a caught exception sets the status to exactly "Error: " followed by the first 30 characters of its message (all of it when shorter) |
| `TraySync.FailedPushStatusStays` | clipboard_tray.py:278-308 | a failed push with nothing pulled leaves "Pushing <kind>..." as the status |
| `TraySync.PausedRunChangesNothing` | clipboard_tray.py:267-270 | at the level of `RunEvents`, paused passes leave the tray state as it was; the method-level fact is `ClipboardSync.SyncIteration`'s paused clause |
| `TraySync.TogglePauseFlips` | clipboard_tray.py:343-345 | toggling flips `paused`, shows "Paused" when pausing and "Watching clipboard..." when resuming, and changes nothing else |
| `TraySync.StoppedStaysStopped` | clipboard_tray.py:267 | at the level of `RunEvents`, once `running` is false no later event changes anything; `ClipboardSync.Run` uses it for the events its `&& running` loop does not reach |
| `TraySync.QuitEndsLoop` | clipboard_tray.py:347-349 | after Quit, whatever follows, `running` stays false and the variables and status stay those reached before it |
| `TraySync.TrayMatchesEngine` | clipboard_tray.py:272-305 | iterations of the tray loop move the three variables exactly as the standalone engine's ticks do |
| `TraySync.SourcelessEmbeddedPostNotPulled` | clipboard_tray.py:131-137 | the embedded server stores a post without `source` under "unknown", and the tray loop's pull guard (clipboard_tray.py:293) never pulls it |
| `TraySync.Apply` | clipboard_tray.py:265-349 | the effect of one loop pass or menu action on the tray state; `TogglePauseFlips` and `IterationMovesVars` state it |
| `TraySync.RunEvents` | clipboard_tray.py:265-270 | events in order until `running` is false; `RunEventsAppend`, `QuitEndsLoop` and `TrayMatchesEngine` state its properties |
| `TraySync.IterationMovesVars` | clipboard_tray.py:272-305 | an unpaused pass moves the variables by one engine tick and keeps `running` and `paused` |
| `TraySync.ClipboardSync.constructor` | clipboard_tray.py:153-159 | the tray object starts running, unpaused, with empty variables and status "Starting..." |
| `TraySync.ClipboardSync.SyncIteration` | clipboard_tray.py:265-314 | a paused pass changes nothing; otherwise the variables move by one engine `Step` and the status becomes `StatusAfter` of it |
| `TraySync.ClipboardSync.TogglePauseItem` | clipboard_tray.py:343-345 | flips `paused` and sets the matching status, nothing else |
| `TraySync.ClipboardSync.QuitItem` | clipboard_tray.py:347-348 | clears `running`, nothing else |
| `TraySync.ClipboardSync.Handle` | clipboard_tray.py:265-349 | one event, dispatched to a loop pass or a menu item, with the effect `Apply` gives |
| `TraySync.ClipboardSync.Run` | clipboard_tray.py:265-270 | loop passes and menu actions in order until `running` is false, with the effect `RunEvents` gives |

## Left out

- PowerShell clipboard access (`run_ps`, `get_clipboard_hash`, `set_text_clipboard`, `set_image_clipboard`, temp files, base64) is a foreign call. The read is an input. The write is an input that either succeeds or raises with a message. Whether text survives the here-string round trip (it adds a newline) is not modelled. Each tick's read is a free input, so nothing assumes what a read after a write returns; only the `lastLocalHash` clause of `NoEchoAfterPull` takes the read to return the pulled data. Its no-push conclusion holds for any read, because `last_source` is Server after a pull. An exception raised by the reader itself (no PowerShell) is not modelled.
- MD5 is an abstract hash function. Collisions are not modelled.
- HTTP transport is not modelled: `urllib`, `HTTPServer`, timeouts, header writing, and the `Content-Length` arithmetic of replies. A `Content-Length` header that is not an integer makes `int()` raise; that case is not modelled.
- CORS is not modelled: the `Access-Control-*` headers of `_send_json` and `do_OPTIONS` are constant emissions.
- `Http.UrlPath` models only request targets in origin form (`/path;params?query#fragment`). Absolute-form targets, targets starting with `//`, and the whitespace and control-character stripping of `urlparse` are not modelled.
- JSON encoding and decoding of the store file is not modelled. A written document is taken to decode back to itself.
- Time (`time.time()`) is an input.
- Threads, `time.sleep`, `POLL_INTERVAL` and the one-second back-off after an error are not modelled. Ticks, menu actions and requests are sequential steps.
- The standalone loop's exit on `KeyboardInterrupt` is not modelled: it is a signal, not a tick input.
- Console and log output is not modelled: the progress and error `print`s of the standalone loop, the persistence-failure message of `save_store`, and the request logging of the HTTP server.
- The tray UI is not modelled: icon drawing, the `pystray` menu rendering, `icon.stop()`, and the automatic `pip install`.
- `push_clip.py` and `pull_clip.py` are not part of this model. They are one-shot scripts. Their only logic is a text/image branch, and the engine's push and pull phases already cover it.
- UTF-8 encoding of strings (`.encode()` before hashing, or lone surrogates that fail to encode) is not modelled: strings are sequences of Unicode scalar values.
- TraySync.TypeLabel: the status label of a pulled clip whose `type` is a float, a list or an object is empty instead of Python's `str()` of that value. Python's float and container formatting is not modelled. Both servers only ever store "text" or "image".

=== FILE: clip_store.dfy ===
/**
 * The single persisted slot: one JSON file holding the latest clip document
 * (`load_store` / `save_store`). The embedded server of the tray application
 * keeps an identical copy of this logic over a file in the temp directory.
 */
module ClipStore {
  import opened JsonValue

  /** What the store file holds: nothing, bytes that do not decode as JSON, or a decoded document. */
  datatype StoreFile = Missing | Unreadable | Holds(doc: Json)

  /**
   * How a `save_store` attempt ends: the document is written; `open(..., "w")`
   * fails and the file is untouched; or the file was opened (and so truncated)
   * but writing the document failed part-way. Both failures are swallowed.
   */
  datatype SaveOutcome = Written | OpenFailed | DumpFailed

  /**
   * `load_store`: the decoded document, or an empty object when the file is
   * missing or cannot be read and decoded. It never fails.
   */
  function LoadStore(f: StoreFile): (stored: Json)
    ensures f.Holds? ==> stored == f.doc
    ensures !f.Holds? ==> stored == JObj(map[]) && !Truthy(stored)
  {
    if f.Holds? then f.doc else JObj(map[])
  }

  /** The store object: the file is the slot, overwritten wholesale by every successful save. */
  class ClipboardStore {
    var file: StoreFile

    /** The store as the server finds it on start-up (a restart re-reads the same file). */
    constructor (initial: StoreFile)
      ensures file == initial
    {
      file := initial;
    }

    /**
     * `save_store`: a written document replaces the previous one entirely;
     * a failed open leaves the file as it was; a failed dump leaves a
     * truncated file that no longer decodes. No failure reaches the caller.
     */
    method Save(payload: map<string, Json>, outcome: SaveOutcome)
      modifies this
      ensures outcome == Written ==> file == Holds(JObj(payload))
      ensures outcome == OpenFailed ==> file == old(file)
      ensures outcome == DumpFailed ==> file == Unreadable
    {
      match outcome
      case Written => file := Holds(JObj(payload));
      case OpenFailed =>
      case DumpFailed => file := Unreadable;
    }
  }
}

=== FILE: http.dfy ===
/**
 * What both store servers share: the response of a request handler, the path
 * that `urlparse(self.path).path` extracts from a request target, and the
 * classification of a GET request against the stored document.
 */
module Http {
  import opened JsonValue

  /**
   * What a handler sends back: a JSON reply with its status code, or nothing at
   * all when the handler raised (the server logs the traceback and closes the
   * connection).
   */
  datatype Response = Reply(status: int, body: Json) | Dropped

  /** The two paths that GET accepts as aliases. */
  const ClipPaths: set<string> := {"/clip", "/clip/latest"}

  /** The prefix of `s` before the first character in `stops` (all of `s` if there is none). */
  function TakeUntil(s: string, stops: set<char>): (r: string)
    ensures r <= s
    ensures forall k :: 0 <= k < |r| ==> r[k] !in stops
    ensures |r| < |s| ==> s[|r|] in stops
  {
    if s == [] || s[0] in stops then [] else [s[0]] + TakeUntil(s[1..], stops)
  }

  /** The index of the first occurrence of `c` in `s`. */
  function IndexOf(s: string, c: char): (i: nat)
    requires c in s
    ensures i < |s| && s[i] == c && c !in s[..i]
  {
    if s[0] == c then 0 else 1 + IndexOf(s[1..], c)
  }

  /**
   * `urlparse` removes `;parameters` from the last path segment only: the
   * path keeps everything up to the last `/`, and the last segment is cut at
   * its first `;`.
   */
  function StripParams(p: string): string
    decreases |p|
  {
    if '/' !in p then TakeUntil(p, {';'})
    else
      var i := IndexOf(p, '/');
      p[..i + 1] + StripParams(p[i + 1..])
  }

  /**
   * `urlparse(target).path` for a request target in origin form (`/path?query#fragment`):
   * the fragment and the query are split off first, then the parameters.
   */
  function UrlPath(target: string): string {
    StripParams(TakeUntil(target, {'?', '#'}))
  }

  /**
   * `do_GET` of both servers: the clip paths answer with the stored document
   * when it is truthy and with 404 "No clip available" otherwise; every other
   * path answers 404 "Not found".
   */
  function HandleGet(target: string, stored: Json): (r: Response)
    ensures r.Reply?
    ensures r.status == 200 <==> UrlPath(target) in ClipPaths && Truthy(stored)
    ensures r.status == 200 ==> r.body == stored
    ensures UrlPath(target) in ClipPaths && !Truthy(stored) ==> r == Reply(404, ErrorBody("No clip available"))
    ensures UrlPath(target) !in ClipPaths ==> r == Reply(404, ErrorBody("Not found"))
  {
    if UrlPath(target) in ClipPaths then
      if Truthy(stored) then Reply(200, stored) else Reply(404, ErrorBody("No clip available"))
    else
      Reply(404, ErrorBody("Not found"))
  }

  /** A path without `;` is its own parameter-free form. */
  lemma {:induction false} StripParamsPlain(p: string)
    requires ';' !in p
    ensures StripParams(p) == p
    decreases |p|
  {
    if '/' !in p {
      assert TakeUntil(p, {';'}) == p by { TakeUntilAll(p, {';'}); }
    } else {
      var i := IndexOf(p, '/');
      var tail := p[i + 1..];
      assert ';' !in tail by {
        forall k | 0 <= k < |tail| ensures tail[k] != ';' { assert tail[k] == p[i + 1 + k]; }
      }
      StripParamsPlain(tail);
      assert p[..i + 1] + tail == p;
    }
  }

  /** A string with no stop character is kept whole. */
  lemma {:induction false} TakeUntilAll(s: string, stops: set<char>)
    requires forall k :: 0 <= k < |s| ==> s[k] !in stops
    ensures TakeUntil(s, stops) == s
  {
    if s != [] {
      TakeUntilAll(s[1..], stops);
      assert [s[0]] + s[1..] == s;
    }
  }

  /** The stop character ends the prefix, whatever follows it. */
  lemma {:induction false} TakeUntilStops(p: string, c: char, rest: string, stops: set<char>)
    requires c in stops
    requires forall k :: 0 <= k < |p| ==> p[k] !in stops
    ensures TakeUntil(p + [c] + rest, stops) == p
  {
    if p != [] {
      assert (p + [c] + rest)[1..] == p[1..] + [c] + rest;
      TakeUntilStops(p[1..], c, rest, stops);
      assert [p[0]] + p[1..] == p;
    }
  }

  /**
   * GET `/clip` and `/clip/latest` ignore a query string or a fragment:
   * `urlparse` puts it outside the path that is compared.
   */
  lemma ClipPathIgnoresQuery(p: string, separator: char, rest: string)
    requires p in ClipPaths
    requires separator == '?' || separator == '#'
    ensures UrlPath(p + [separator] + rest) == p
    ensures UrlPath(p) == p
  {
    assert forall k :: 0 <= k < |p| ==> p[k] !in {'?', '#'} && p[k] != ';';
    TakeUntilStops(p, separator, rest, {'?', '#'});
    TakeUntilAll(p, {'?', '#'});
    StripParamsPlain(p);
  }

  /** With the path normalised as above, a GET with a query answers exactly as one without. */
  lemma GetIgnoresQuery(p: string, separator: char, rest: string, stored: Json)
    requires p in ClipPaths
    requires separator == '?' || separator == '#'
    ensures HandleGet(p + [separator] + rest, stored) == HandleGet(p, stored)
    ensures HandleGet(p, stored).status == (if Truthy(stored) then 200 else 404)
  {
    ClipPathIgnoresQuery(p, separator, rest);
  }
}

=== FILE: json.dfy ===
/**
 * Decoded JSON values as Python's `json` module produces them, and the few
 * Python operations the servers and the sync loop apply to them.
 */
module JsonValue {

  /** A decoded JSON document: `null`, booleans, integers, floats, strings, lists and objects. */
  datatype Json =
    | JNull
    | JBool(b: bool)
    | JInt(i: int)
    | JFloat(r: real)
    | JStr(s: string)
    | JArr(items: seq<Json>)
    | JObj(fields: map<string, Json>)

  /** Python's `bool()` of the decoded value: what `if store:` and `mime or default` test. */
  predicate Truthy(j: Json) {
    match j
    case JNull => false
    case JBool(b) => b
    case JInt(i) => i != 0
    case JFloat(r) => r != 0.0
    case JStr(s) => s != ""
    case JArr(items) => items != []
    case JObj(fields) => fields != map[]
  }

  /** `d.get(key, default)` on a decoded object; `d.get(key)` is `GetOr(d, key, JNull)`. */
  function GetOr(fields: map<string, Json>, key: string, default: Json): Json {
    if key in fields then fields[key] else default
  }

  /** The name Python gives the type of a decoded value, as it appears in an AttributeError. */
  function TypeName(j: Json): string {
    match j
    case JNull => "NoneType"
    case JBool(_) => "bool"
    case JInt(_) => "int"
    case JFloat(_) => "float"
    case JStr(_) => "str"
    case JArr(_) => "list"
    case JObj(_) => "dict"
  }

  /** The message of the AttributeError raised by `value.attribute` on a type that lacks it. */
  function NoAttribute(j: Json, attribute: string): string {
    "'" + TypeName(j) + "' object has no attribute '" + attribute + "'"
  }

  /** The body `{"error": message}` of every error response. */
  function ErrorBody(message: string): Json {
    JObj(map["error" := JStr(message)])
  }

  /** The body `{"status": "ok"}` of an accepted POST. */
  function OkBody(): Json {
    JObj(map["status" := JStr("ok")])
  }
}

=== FILE: store_server.dfy ===
/**
 * The standalone store server (`server.py`): validation of a POSTed clip,
 * the document that replaces the slot, and the two request handlers over the
 * store file.
 */
module StoreServer {
  import opened Wrappers
  import opened JsonValue
  import opened Http
  import opened ClipStore

  /**
   * A POST as the handler sees it: the request target, the Content-Length
   * header as an integer (an absent header reads as 0), and the body bytes
   * decoded and parsed as JSON (None when decoding or parsing raised).
   */
  datatype PostRequest = PostRequest(target: string, contentLength: int, body: Option<Json>)

  /**
   * The handler's verdict on a POST: an error reply, the document to store,
   * or an exception that escapes the handler.
   */
  datatype Decision = Reject(status: int, message: string) | Accept(payload: map<string, Json>) | Crash(error: string)

  const TypeMessage: string := "type must be 'text' or 'image'"

  /** The only clip types the server stores. */
  predicate KnownType(t: Json) {
    t == JStr("text") || t == JStr("image")
  }

  /** The MIME type filled in when the client gives none. */
  function DefaultMime(t: Json): Json {
    if t == JStr("text") then JStr("text/plain") else JStr("image/png")
  }

  /** The checks that come before the clip fields are looked at: path, length, JSON, object. */
  predicate ObjectBody(req: PostRequest) {
    UrlPath(req.target) == "/clip" && req.contentLength > 0 && req.body.Some? && req.body.value.JObj?
  }

  /** `incoming.get(key)` on the posted object. */
  function Field(req: PostRequest, key: string): Json
    requires ObjectBody(req)
  {
    GetOr(req.body.value.fields, key, JNull)
  }

  /** The classification in `do_POST`, checked in the order the handler checks it; `now` is `int(time.time())`. */
  function Validate(req: PostRequest, now: int): (d: Decision)
    ensures d.Crash? <==>
      UrlPath(req.target) == "/clip" && req.contentLength > 0 && req.body.Some? && !req.body.value.JObj?
    ensures d.Accept? <==> ObjectBody(req) && KnownType(Field(req, "type")) && Field(req, "data") != JNull
    ensures d.Accept? ==>
      && d.payload.Keys == {"type", "data", "mime", "source", "createdAt"}
      && d.payload["type"] == Field(req, "type") && d.payload["data"] == Field(req, "data")
      && d.payload["createdAt"] == JInt(now)
  {
    if UrlPath(req.target) != "/clip" then Reject(404, "Not found")
    else if req.contentLength <= 0 then Reject(400, "Missing body")
    else if req.body.None? then Reject(400, "Invalid JSON")
    else if !req.body.value.JObj? then Crash(NoAttribute(req.body.value, "get"))
    else
      var clipType := Field(req, "type");
      var data := Field(req, "data");
      var mime := Field(req, "mime");
      var source := Field(req, "source");
      if !KnownType(clipType) then Reject(400, TypeMessage)
      else if data == JNull then Reject(400, "data is required")
      else
        Accept(map[
          "type" := clipType,
          "data" := data,
          "mime" := if Truthy(mime) then mime else DefaultMime(clipType),
          "source" := if Truthy(source) then source else JStr("desktop"),
          "createdAt" := JInt(now)])
  }

  /** The reply for a decision that does not store anything. */
  function RejectionResponse(d: Decision): Response
    requires !d.Accept?
  {
    if d.Reject? then Reply(d.status, ErrorBody(d.message)) else Dropped
  }

  /**
   * Each check answers with its own status and message, the first failing
   * check decides, and a POST is accepted exactly when every check passes:
   * the path, a positive length, valid JSON, an object, a known type, then a
   * non-null `data`.
   */
  lemma ValidationOrder(req: PostRequest, now: int)
    ensures Validate(req, now) == Reject(404, "Not found") <==> UrlPath(req.target) != "/clip"
    ensures Validate(req, now) == Reject(400, "Missing body") <==>
      UrlPath(req.target) == "/clip" && req.contentLength <= 0
    ensures Validate(req, now) == Reject(400, "Invalid JSON") <==>
      UrlPath(req.target) == "/clip" && req.contentLength > 0 && req.body.None?
    ensures Validate(req, now).Crash? <==>
      UrlPath(req.target) == "/clip" && req.contentLength > 0 && req.body.Some? && !req.body.value.JObj?
    ensures Validate(req, now) == Reject(400, TypeMessage) <==>
      ObjectBody(req) && !KnownType(Field(req, "type"))
    ensures Validate(req, now) == Reject(400, "data is required") <==>
      ObjectBody(req) && KnownType(Field(req, "type")) && Field(req, "data") == JNull
    ensures Validate(req, now).Accept? <==>
      ObjectBody(req) && KnownType(Field(req, "type")) && Field(req, "data") != JNull
  {
  }

  /** An unknown type is reported even when `data` is missing too: type is checked first. */
  lemma TypeCheckedBeforeData(req: PostRequest, now: int)
    requires ObjectBody(req)
    requires !KnownType(Field(req, "type")) && Field(req, "data") == JNull
    ensures Validate(req, now) == Reject(400, TypeMessage)
  {
  }

  /** An empty string is a present `data`: it is stored, not rejected. */
  lemma EmptyDataAccepted(req: PostRequest, now: int)
    requires ObjectBody(req)
    requires KnownType(Field(req, "type")) && Field(req, "data") == JStr("")
    ensures Validate(req, now).Accept? && Validate(req, now).payload["data"] == JStr("")
  {
  }

  /**
   * An accepted POST yields exactly five fields, so nothing of the previous
   * slot survives: type and data as posted, the given mime when truthy or
   * the type's default, the given source when truthy or "desktop", and the
   * server's integer time.
   */
  lemma AcceptedSlot(req: PostRequest, now: int)
    requires Validate(req, now).Accept?
    ensures var p := Validate(req, now).payload;
      && p.Keys == {"type", "data", "mime", "source", "createdAt"}
      && p["type"] == Field(req, "type") && KnownType(p["type"])
      && p["data"] == Field(req, "data") && p["data"] != JNull
      && p["mime"] == (if Truthy(Field(req, "mime")) then Field(req, "mime")
                       else if p["type"] == JStr("text") then JStr("text/plain") else JStr("image/png"))
      && p["source"] == (if Truthy(Field(req, "source")) then Field(req, "source") else JStr("desktop"))
      && p["createdAt"] == JInt(now)
  {
  }

  /**
   * Posting the same body twice stores the same type, data, mime and source;
   * only `createdAt` can differ.
   */
  lemma RepostChangesOnlyCreatedAt(req: PostRequest, t1: int, t2: int)
    requires Validate(req, t1).Accept?
    ensures Validate(req, t2).Accept?
    ensures Validate(req, t1).payload - {"createdAt"} == Validate(req, t2).payload - {"createdAt"}
    ensures Validate(req, t2).payload["createdAt"] == JInt(t2)
  {
  }

  /** `do_GET`: answers from whatever `load_store` reads now, and changes nothing. */
  method DoGet(store: ClipboardStore, target: string) returns (r: Response)
    ensures r == HandleGet(target, LoadStore(store.file))
  {
    var stored := LoadStore(store.file);
    if UrlPath(target) in ClipPaths {
      if Truthy(stored) {
        r := Reply(200, stored);
      } else {
        r := Reply(404, ErrorBody("No clip available"));
      }
      return;
    }
    r := Reply(404, ErrorBody("Not found"));
  }

  /**
   * `do_POST`: a rejected or crashing request leaves the store file exactly
   * as it was; an accepted one is handed to `save_store` and answered 200
   * `{"status": "ok"}` whether or not the save succeeded.
   */
  method DoPost(store: ClipboardStore, req: PostRequest, now: int, outcome: SaveOutcome) returns (r: Response)
    modifies store
    ensures !Validate(req, now).Accept? ==> store.file == old(store.file) && r == RejectionResponse(Validate(req, now))
    ensures Validate(req, now).Accept? ==> r == Reply(200, OkBody())
    ensures Validate(req, now).Accept? && outcome == Written ==> store.file == Holds(JObj(Validate(req, now).payload))
    ensures Validate(req, now).Accept? && outcome == OpenFailed ==> store.file == old(store.file)
    ensures Validate(req, now).Accept? && outcome == DumpFailed ==> store.file == Unreadable
  {
    var d := Validate(req, now);
    match d
    case Reject(status, message) =>
      r := Reply(status, ErrorBody(message));
    case Crash(_) =>
      r := Dropped;
    case Accept(payload) =>
      store.Save(payload, outcome);
      r := Reply(200, OkBody());
  }

  /**
   * Round trip: once an accepted POST has been written, GET on either clip
   * path answers 200 with the stored document, whose type and data are the
   * posted ones.
   */
  lemma PostThenGet(req: PostRequest, now: int, target: string)
    requires Validate(req, now).Accept?
    requires UrlPath(target) in ClipPaths
    ensures var r := HandleGet(target, LoadStore(Holds(JObj(Validate(req, now).payload))));
      && r == Reply(200, JObj(Validate(req, now).payload))
      && r.body.fields["type"] == Field(req, "type")
      && r.body.fields["data"] == Field(req, "data")
  {
    // An accepted payload always has a "type" key, so it is truthy.
  }

  /** A store never written, or whose last save failed mid-write, answers 404 "No clip available". */
  lemma EmptyStoreAnswersNoClip(f: StoreFile, target: string)
    requires f == Missing || f == Unreadable
    requires UrlPath(target) in ClipPaths
    ensures HandleGet(target, LoadStore(f)) == Reply(404, ErrorBody("No clip available"))
  {
  }
}

=== FILE: sync_engine.dfy ===
/**
 * The reconciliation tick of the standalone sync loop (`clipboard_sync.py`).
 * The loop keeps three variables: the hash of the last local content it
 * handled, the hash of the content it believes the server holds, and which
 * side acted last. Each tick may push the local clip, then may pull the
 * server clip. Clipboard access and HTTP are inputs of the tick; MD5 is an
 * abstract hash function `h`.
 */
module SyncEngine {
  import opened Wrappers
  import opened JsonValue
  import opened Http
  import opened ClipStore
  import opened StoreServer

  /** The content hash (MD5 hex digest of the UTF-8 text). */
  type Hasher = string -> string

  /** A hex digest is never empty, so an empty hash can stand for "nothing read". */
  ghost predicate NonEmptyHashes(h: Hasher) {
    forall s :: h(s) != ""
  }

  /** The two kinds of content the local clipboard reader reports. */
  datatype Kind = Text | Image

  function KindName(k: Kind): string {
    match k
    case Text => "text"
    case Image => "image"
  }

  /** A successful clipboard read: the kind and the text (for images, their base64 PNG). */
  datatype LocalClip = LocalClip(kind: Kind, data: string)

  /** `last_source`: "" before any action, "local" after a push attempt, "server" after a pull. */
  datatype LastSource = Unset | Local | Server

  /** The loop's three variables. */
  datatype SyncVars = SyncVars(lastLocalHash: string, lastServerHash: string, lastSource: LastSource)

  /** The variables before the first tick. */
  const Initial: SyncVars := SyncVars("", "", Unset)

  /**
   * What the outside world supplies to one tick: the clipboard read (None
   * when the reader returned empty strings), whether the POST answered 200,
   * the fetched server document (None when the fetch failed or was not 200),
   * and the exception raised by writing the clipboard, if any.
   */
  datatype TickInput = TickInput(local: Option<LocalClip>, pushOk: bool, fetched: Option<Json>, writeError: Option<string>)

  /** Whether the tick attempted a push, of which kind, and whether the server accepted it. */
  datatype PushReport = NoPush | Pushed(kind: Kind, ok: bool)

  /**
   * The end of a tick: the new variables, the push report, the `type` of a
   * clip the tick started to pull, and the exception that ended the tick
   * early (caught by the loop).
   */
  datatype TickResult = TickResult(vars: SyncVars, push: PushReport, pullKind: Option<Json>, error: Option<string>)

  /** The third component of `get_clipboard_hash()`: the empty string when nothing was read. */
  function LocalHash(h: Hasher, local: Option<LocalClip>): string {
    if local.Some? then h(local.value.data) else ""
  }

  /** The push condition: a hash was read, it is new, and the last action was not a pull. */
  predicate PushGuard(v: SyncVars, localHash: string) {
    localHash != "" && localHash != v.lastLocalHash && v.lastSource != Server
  }

  /** The first half of a tick: the push decision and its updates. */
  function PushPhase(h: Hasher, v: SyncVars, local: Option<LocalClip>, pushOk: bool): (SyncVars, PushReport) {
    var localHash := LocalHash(h, local);
    if PushGuard(v, localHash) then
      (SyncVars(localHash, if pushOk then h(local.value.data) else v.lastServerHash, Local),
       Pushed(local.value.kind, pushOk))
    else
      (v, NoPush)
  }

  /** The second half of a tick: the pull decision over the fetched document. */
  function PullPhase(h: Hasher, v: SyncVars, fetched: Option<Json>, writeError: Option<string>): TickResult {
    if fetched.None? || !Truthy(fetched.value) then TickResult(v, NoPush, None, None)
    else if !fetched.value.JObj? then TickResult(v, NoPush, None, Some(NoAttribute(fetched.value, "get")))
    else
      var clip := fetched.value.fields;
      var data := GetOr(clip, "data", JStr(""));
      if !data.JStr? then TickResult(v, NoPush, None, Some(NoAttribute(data, "encode")))
      else
        var serverHash := h(data.s);
        var source := GetOr(clip, "source", JStr(""));
        if serverHash != v.lastServerHash && source == JStr("phone") then
          var kind := GetOr(clip, "type", JNull);
          if KnownType(kind) && writeError.Some? then TickResult(v, NoPush, Some(kind), writeError)
          else TickResult(SyncVars(serverHash, serverHash, Server), NoPush, Some(kind), None)
        else
          TickResult(v, NoPush, None, None)
  }

  /** One tick: push phase, then pull phase over the variables the push phase left. */
  function Step(h: Hasher, v: SyncVars, t: TickInput): (r: TickResult)
    ensures v.lastSource == Server ==> r.push == NoPush
    ensures r.vars.lastSource == Server <==> v.lastSource == Server || (r.pullKind.Some? && r.error.None?)
    ensures r.error.Some? ==> r.vars == PushPhase(h, v, t.local, t.pushOk).0
    ensures r.vars.lastSource == Unset ==> r.vars == v
  {
    var (afterPush, push) := PushPhase(h, v, t.local, t.pushOk);
    var pull := PullPhase(h, afterPush, t.fetched, t.writeError);
    TickResult(pull.vars, push, pull.pullKind, pull.error)
  }

  /** The variables after a sequence of ticks, in order. */
  function Steps(h: Hasher, v: SyncVars, ts: seq<TickInput>): (r: SyncVars)
    ensures r.lastSource == Unset ==> r == v
    decreases |ts|
  {
    if ts == [] then v else Step(h, Steps(h, v, ts[..|ts| - 1]), ts[|ts| - 1]).vars
  }

  /** The pull condition: a truthy object was fetched, its data is a string whose hash is new, and it came from the phone. */
  predicate PullGuard(h: Hasher, v: SyncVars, fetched: Option<Json>) {
    && fetched.Some? && fetched.value.JObj? && fetched.value.fields != map[]
    && GetOr(fetched.value.fields, "data", JStr("")).JStr?
    && h(GetOr(fetched.value.fields, "data", JStr("")).s) != v.lastServerHash
    && GetOr(fetched.value.fields, "source", JStr("")) == JStr("phone")
  }

  /** The hash of the data of a fetched object whose data is a string. */
  function ServerHash(h: Hasher, fetched: Option<Json>): string
    requires fetched.Some? && fetched.value.JObj? && GetOr(fetched.value.fields, "data", JStr("")).JStr?
  {
    h(GetOr(fetched.value.fields, "data", JStr("")).s)
  }

  /**
   * A push is attempted exactly when something was read, its hash differs
   * from the last local hash, and the last action was not a pull; it pushes
   * the clip that was read and reports the server's answer.
   */
  lemma PushIffGuard(h: Hasher, v: SyncVars, t: TickInput)
    requires NonEmptyHashes(h)
    ensures Step(h, v, t).push.Pushed? <==>
      t.local.Some? && h(t.local.value.data) != v.lastLocalHash && v.lastSource != Server
    ensures Step(h, v, t).push.Pushed? ==> Step(h, v, t).push == Pushed(t.local.value.kind, t.pushOk)
  {
  }

  /**
   * After a push attempt the last local hash is the pushed content's hash and
   * the last source is Local, whether or not the push succeeded; the server
   * hash moves to the pushed content's hash only on success. Without a push
   * the variables are untouched.
   */
  lemma PushUpdates(h: Hasher, v: SyncVars, local: Option<LocalClip>, pushOk: bool)
    ensures var (after, report) := PushPhase(h, v, local, pushOk);
      && (report.Pushed? ==>
           && after.lastLocalHash == h(local.value.data)
           && after.lastSource == Local
           && after.lastServerHash == (if pushOk then h(local.value.data) else v.lastServerHash))
      && (report.NoPush? ==> after == v)
  {
  }

  /**
   * Content once read is never pushed by the next tick that reads it again:
   * in particular a failed push is not retried while the clipboard keeps the
   * same content, because the last local hash already records it (or a pull
   * in between made the last source Server).
   */
  lemma NoRetryOfSameContent(h: Hasher, v: SyncVars, t: TickInput, next: TickInput)
    requires t.local.Some? && next.local == t.local
    ensures Step(h, Step(h, v, t).vars, next).push == NoPush
  {
  }

  /**
   * A pull starts exactly when the pull condition holds over the variables
   * the push phase left; otherwise (nothing fetched, an empty document, a
   * known hash, or a source other than "phone") the pull phase leaves them
   * as they are, and it raises only for a fetched value that is not an
   * object or whose data is not a string.
   */
  lemma PullOnlyFromPhone(h: Hasher, v: SyncVars, t: TickInput)
    ensures var afterPush := PushPhase(h, v, t.local, t.pushOk).0;
      && (Step(h, v, t).pullKind.Some? <==> PullGuard(h, afterPush, t.fetched))
      && (!PullGuard(h, afterPush, t.fetched) ==> Step(h, v, t).vars == afterPush)
      && (!PullGuard(h, afterPush, t.fetched) ==>
           (Step(h, v, t).error.Some? <==>
              t.fetched.Some? && Truthy(t.fetched.value)
              && (!t.fetched.value.JObj? || !GetOr(t.fetched.value.fields, "data", JStr("")).JStr?)))
  {
  }

  /**
   * A pull that completes sets both hashes to the server content's hash and
   * the last source to Server. A pull completes whenever the clipboard write
   * succeeds; when the type is neither "text" nor "image" nothing is written
   * (a write failure cannot occur) and the variables are updated all the same.
   */
  lemma PullUpdates(h: Hasher, v: SyncVars, t: TickInput)
    requires PullGuard(h, PushPhase(h, v, t.local, t.pushOk).0, t.fetched)
    ensures var kind := GetOr(t.fetched.value.fields, "type", JNull);
      var serverHash := ServerHash(h, t.fetched);
      && Step(h, v, t).pullKind == Some(kind)
      && (Step(h, v, t).error.None? ==> Step(h, v, t).vars == SyncVars(serverHash, serverHash, Server))
      && (!KnownType(kind) ==> Step(h, v, t).error.None?)
      && ((!KnownType(kind) || t.writeError.None?) ==>
           Step(h, v, t).error.None? && Step(h, v, t).vars == SyncVars(serverHash, serverHash, Server))
  {
  }

  /**
   * When writing the pulled clip raises, the pull's updates are skipped and
   * the exception ends the tick; what the push phase of the same tick did
   * persists.
   */
  lemma WriteFailureSkipsPullUpdates(h: Hasher, v: SyncVars, t: TickInput)
    requires PullGuard(h, PushPhase(h, v, t.local, t.pushOk).0, t.fetched)
    requires KnownType(GetOr(t.fetched.value.fields, "type", JNull)) && t.writeError.Some?
    ensures Step(h, v, t).vars == PushPhase(h, v, t.local, t.pushOk).0
    ensures Step(h, v, t).error == t.writeError
  {
  }

  /**
   * No echo: after a tick that pulled content `d`, the next tick that reads
   * `d` from the clipboard does not push it back; its hash is already the
   * last local hash, and the last source is Server as well.
   */
  lemma NoEchoAfterPull(h: Hasher, v: SyncVars, t: TickInput, next: TickInput, kind: Kind)
    requires Step(h, v, t).pullKind.Some? && Step(h, v, t).error.None?
    requires next.local == Some(LocalClip(kind, GetOr(t.fetched.value.fields, "data", JStr("")).s))
    ensures Step(h, v, t).vars.lastLocalHash == LocalHash(h, next.local)
    ensures Step(h, v, t).vars.lastSource == Server
    ensures Step(h, Step(h, v, t).vars, next).push == NoPush
  {
    // The pull wrote the server hash into the last local hash and set the last source to Server.
  }

  /** A tick started after a pull neither pushes nor leaves the Server source. */
  lemma ServerSourceIsStable(h: Hasher, v: SyncVars, t: TickInput)
    requires v.lastSource == Server
    ensures Step(h, v, t).push == NoPush
    ensures Step(h, v, t).vars.lastSource == Server
  {
  }

  /** The stuck state: once the last source is Server it stays Server over any run of ticks. */
  lemma {:induction false} ServerSourceIsSticky(h: Hasher, v: SyncVars, ts: seq<TickInput>)
    requires v.lastSource == Server
    ensures Steps(h, v, ts).lastSource == Server
    decreases |ts|
  {
    if ts != [] {
      ServerSourceIsSticky(h, v, ts[..|ts| - 1]);
      ServerSourceIsStable(h, Steps(h, v, ts[..|ts| - 1]), ts[|ts| - 1]);
    }
  }

  /**
   * Consequently, after the first pull no later tick ever pushes, whatever
   * new content the local clipboard shows.
   */
  lemma NeverPushesAfterPull(h: Hasher, v: SyncVars, ts: seq<TickInput>, k: nat)
    requires v.lastSource == Server
    requires k < |ts|
    ensures Step(h, Steps(h, v, ts[..k]), ts[k]).push == NoPush
  {
    ServerSourceIsSticky(h, v, ts[..k]);
  }

  /** The body `push_to_server` posts: the clip, its MIME type and the source "desktop". */
  function PushBody(c: LocalClip): Json {
    JObj(map[
      "type" := JStr(KindName(c.kind)),
      "data" := JStr(c.data),
      "mime" := JStr(if c.kind == Text then "text/plain" else "image/png"),
      "source" := JStr("desktop")])
  }

  /** `fetch_server_clip`: the decoded body of a 200 reply, None for anything else. */
  function Fetched(r: Response): Option<Json> {
    if r.Reply? && r.status == 200 then Some(r.body) else None
  }

  /**
   * Origin filtering, first half: what this desktop pushes is stored with
   * source "desktop", so when a later tick fetches it back (GET on either
   * clip path) the pull phase leaves the variables alone.
   */
  lemma OwnPushNotPulledBack(h: Hasher, v: SyncVars, c: LocalClip, req: PostRequest, now: int, getTarget: string, t: TickInput)
    requires UrlPath(req.target) == "/clip" && req.contentLength > 0 && req.body == Some(PushBody(c))
    requires UrlPath(getTarget) in ClipPaths
    ensures Validate(req, now) == Accept(StoredPush(c, now))
    ensures var fetched := Fetched(HandleGet(getTarget, LoadStore(Holds(JObj(StoredPush(c, now))))));
      var step := Step(h, v, t.(fetched := fetched));
      && fetched == Some(JObj(StoredPush(c, now)))
      && step.pullKind.None? && step.error.None?
      && step.vars == PushPhase(h, v, t.local, t.pushOk).0
  {
    // The stored document is truthy and its source is "desktop", so the pull guard fails.
  }

  /** The document the server stores for a desktop push at time `now`. */
  function StoredPush(c: LocalClip, now: int): map<string, Json> {
    map[
      "type" := JStr(KindName(c.kind)),
      "data" := JStr(c.data),
      "mime" := JStr(if c.kind == Text then "text/plain" else "image/png"),
      "source" := JStr("desktop"),
      "createdAt" := JInt(now)]
  }

  /** The server accepts what `push_to_server` posts and stores it with the given MIME type and source "desktop". */
  lemma PushIsAccepted(c: LocalClip, req: PostRequest, now: int)
    requires UrlPath(req.target) == "/clip" && req.contentLength > 0 && req.body == Some(PushBody(c))
    ensures Validate(req, now) == Accept(StoredPush(c, now))
  {
    // Every field push_to_server sends is truthy, so neither `or` default applies.
  }

  /** What the phone posts for a text clip: type, data and its own source. */
  function PhoneBody(text: string): Json {
    JObj(map["type" := JStr("text"), "data" := JStr(text), "source" := JStr("phone")])
  }

  /**
   * Origin filtering, second half: text the phone posts is pulled by the
   * desktop's next tick whose server hash differs, and then both hashes
   * record it with the last source Server.
   */
  lemma PhonePostIsPulled(h: Hasher, v: SyncVars, text: string, req: PostRequest, now: int, getTarget: string)
    requires UrlPath(req.target) == "/clip" && req.contentLength > 0 && req.body == Some(PhoneBody(text))
    requires UrlPath(getTarget) in ClipPaths
    requires h(text) != v.lastServerHash
    ensures Validate(req, now).Accept?
    ensures var fetched := Fetched(HandleGet(getTarget, LoadStore(Holds(JObj(Validate(req, now).payload)))));
      var step := Step(h, v, TickInput(None, false, fetched, None));
      && step.pullKind == Some(JStr("text"))
      && step.vars == SyncVars(h(text), h(text), Server)
  {
    // The stored document keeps source "phone" and type "text"; only mime is defaulted.
  }

  /** What a client posts when it leaves out `source`: only type and data. */
  function SourcelessBody(text: string): Json {
    JObj(map["type" := JStr("text"), "data" := JStr(text)])
  }

  /**
   * A post without `source` is stored with source "desktop", so the desktop
   * never pulls it, whatever its content and whatever the loop's state.
   */
  lemma SourcelessPostNotPulled(h: Hasher, v: SyncVars, text: string, req: PostRequest, now: int, getTarget: string, t: TickInput)
    requires UrlPath(req.target) == "/clip" && req.contentLength > 0 && req.body == Some(SourcelessBody(text))
    requires UrlPath(getTarget) in ClipPaths
    ensures Validate(req, now).Accept? && Validate(req, now).payload["source"] == JStr("desktop")
    ensures var fetched := Fetched(HandleGet(getTarget, LoadStore(Holds(JObj(Validate(req, now).payload)))));
      Step(h, v, t.(fetched := fetched)).pullKind.None?
  {
    // The missing key reads as None, which is falsy, so `source or "desktop"` applies.
  }

  /** The loop's state as an object whose fields each tick reassigns. */
  class EngineState {
    var lastLocalHash: string
    var lastServerHash: string
    var lastSource: LastSource
    const hash: Hasher

    constructor (h: Hasher)
      ensures hash == h && Vars() == Initial
    {
      hash := h;
      lastLocalHash, lastServerHash, lastSource := "", "", Unset;
    }

    function Vars(): SyncVars
      reads this
    {
      SyncVars(lastLocalHash, lastServerHash, lastSource)
    }

    /**
     * One iteration of the `while True` body. An exception (from reading the
     * fetched document or writing the clipboard) ends the tick where it is
     * raised: updates already made stay, the rest are skipped, and the
     * message is returned as the loop's handler would print it.
     */
    method Tick(t: TickInput) returns (failure: Option<string>)
      modifies this
      ensures Vars() == Step(hash, old(Vars()), t).vars
      ensures failure == Step(hash, old(Vars()), t).error
    {
      var localHash := if t.local.Some? then hash(t.local.value.data) else "";
      if localHash != "" && localHash != lastLocalHash && lastSource != Server {
        if t.pushOk {
          lastServerHash := hash(t.local.value.data);
        }
        lastLocalHash := localHash;
        lastSource := Local;
      }
      failure := None;
      if t.fetched.Some? && Truthy(t.fetched.value) {
        var serverClip := t.fetched.value;
        if !serverClip.JObj? {
          failure := Some(NoAttribute(serverClip, "get"));
          return;
        }
        var serverData := GetOr(serverClip.fields, "data", JStr(""));
        if !serverData.JStr? {
          failure := Some(NoAttribute(serverData, "encode"));
          return;
        }
        var serverHash := hash(serverData.s);
        var serverSource := GetOr(serverClip.fields, "source", JStr(""));
        if serverHash != lastServerHash && serverSource == JStr("phone") {
          var clipType := GetOr(serverClip.fields, "type", JNull);
          if clipType == JStr("text") || clipType == JStr("image") {
            if t.writeError.Some? {
              failure := t.writeError;
              return;
            }
          }
          lastServerHash := serverHash;
          lastLocalHash := serverHash;
          lastSource := Server;
        }
      }
    }

    /** The loop over a finite run of ticks; an exception ends a tick, never the loop. */
    method Run(ticks: seq<TickInput>)
      modifies this
      ensures Vars() == Steps(hash, old(Vars()), ticks)
    {
      var i := 0;
      while i < |ticks|
        invariant 0 <= i <= |ticks|
        invariant Vars() == Steps(hash, old(Vars()), ticks[..i])
      {
        assert ticks[..i + 1][..i] == ticks[..i];
        var _ := Tick(ticks[i]);
        i := i + 1;
      }
      assert ticks[..i] == ticks;
    }
  }
}

=== FILE: tray_server.dfy ===
/**
 * The store server embedded in the tray application. Its checks and its GET
 * are those of the standalone server; the stored document differs: `mime` is
 * defaulted only when the key is absent, `source` defaults to "unknown", and
 * the time is a float under the key "timestamp".
 */
module TrayServer {
  import opened JsonValue
  import opened Http
  import opened ClipStore
  import opened StoreServer

  /** The embedded `do_POST` classification; `now` is `time.time()`. */
  function ValidateEmbedded(req: PostRequest, now: real): (d: Decision)
    ensures d.Accept? <==> ObjectBody(req) && KnownType(Field(req, "type")) && Field(req, "data") != JNull
    ensures d.Accept? ==>
      && d.payload.Keys == {"type", "data", "mime", "source", "timestamp"}
      && d.payload["type"] == Field(req, "type") && d.payload["data"] == Field(req, "data")
      && d.payload["timestamp"] == JFloat(now)
  {
    if UrlPath(req.target) != "/clip" then Reject(404, "Not found")
    else if req.contentLength <= 0 then Reject(400, "Missing body")
    else if req.body.None? then Reject(400, "Invalid JSON")
    else if !req.body.value.JObj? then Crash(NoAttribute(req.body.value, "get"))
    else
      var incoming := req.body.value.fields;
      var clipType := GetOr(incoming, "type", JNull);
      var data := GetOr(incoming, "data", JNull);
      if !KnownType(clipType) then Reject(400, TypeMessage)
      else if data == JNull then Reject(400, "data is required")
      else
        Accept(map[
          "type" := clipType,
          "data" := data,
          "mime" := GetOr(incoming, "mime", DefaultMime(clipType)),
          "source" := GetOr(incoming, "source", JStr("unknown")),
          "timestamp" := JFloat(now)])
  }

  /**
   * Both servers reject the same requests with the same status and message
   * (including a bad type before a missing data), and accept the same ones.
   */
  lemma SameChecksAsStandalone(req: PostRequest, now: real, seconds: int)
    ensures ValidateEmbedded(req, now).Accept? <==> Validate(req, seconds).Accept?
    ensures !Validate(req, seconds).Accept? ==> ValidateEmbedded(req, now) == Validate(req, seconds)
  {
  }

  /**
   * The embedded slot: type and data as posted, `mime` and `source` as given
   * whenever the key is present (even a null or an empty string), the type's
   * default MIME and "unknown" when absent, and a float "timestamp" instead
   * of "createdAt".
   */
  lemma EmbeddedSlot(req: PostRequest, now: real)
    requires ValidateEmbedded(req, now).Accept?
    ensures var p := ValidateEmbedded(req, now).payload;
      var incoming := req.body.value.fields;
      && p.Keys == {"type", "data", "mime", "source", "timestamp"}
      && "createdAt" !in p
      && p["type"] == Field(req, "type") && p["data"] == Field(req, "data")
      && ("mime" in incoming ==> p["mime"] == incoming["mime"])
      && ("mime" !in incoming ==> p["mime"] == DefaultMime(p["type"]))
      && ("source" in incoming ==> p["source"] == incoming["source"])
      && ("source" !in incoming ==> p["source"] == JStr("unknown"))
      && p["timestamp"] == JFloat(now)
  {
  }

  /**
   * Where the copies disagree: an explicit `"mime": null` is stored as null by
   * the embedded server but replaced by the default in the standalone one.
   */
  lemma ExplicitNullMimeDiffers(req: PostRequest, now: real, seconds: int)
    requires ValidateEmbedded(req, now).Accept?
    requires "mime" in req.body.value.fields && req.body.value.fields["mime"] == JNull
    ensures ValidateEmbedded(req, now).payload["mime"] == JNull
    ensures Validate(req, seconds).payload["mime"] == DefaultMime(Field(req, "type")) != JNull
  {
  }

  /** The embedded `do_GET`: the same classification as the standalone server, over the temp-directory file. */
  method DoGet(store: ClipboardStore, target: string) returns (r: Response)
    ensures r == HandleGet(target, LoadStore(store.file))
    ensures UrlPath(target) in ClipPaths && store.file.Holds? && Truthy(store.file.doc) ==> r == Reply(200, store.file.doc)
  {
    var stored := LoadStore(store.file);
    if UrlPath(target) in ClipPaths {
      if Truthy(stored) {
        r := Reply(200, stored);
      } else {
        r := Reply(404, ErrorBody("No clip available"));
      }
      return;
    }
    r := Reply(404, ErrorBody("Not found"));
  }

  /**
   * The embedded `do_POST`: a rejected type or missing data never reaches
   * `save_store`; an accepted clip is saved (failures are silently ignored)
   * and answered 200.
   */
  method DoPost(store: ClipboardStore, req: PostRequest, now: real, outcome: SaveOutcome) returns (r: Response)
    modifies store
    ensures !ValidateEmbedded(req, now).Accept? ==>
      store.file == old(store.file) && r == RejectionResponse(ValidateEmbedded(req, now))
    ensures ValidateEmbedded(req, now).Accept? ==> r == Reply(200, OkBody())
    ensures ValidateEmbedded(req, now).Accept? && outcome == Written ==>
      store.file == Holds(JObj(ValidateEmbedded(req, now).payload))
    ensures ValidateEmbedded(req, now).Accept? && outcome == OpenFailed ==> store.file == old(store.file)
    ensures ValidateEmbedded(req, now).Accept? && outcome == DumpFailed ==> store.file == Unreadable
  {
    var d := ValidateEmbedded(req, now);
    match d
    case Reject(status, message) =>
      r := Reply(status, ErrorBody(message));
    case Crash(_) =>
      r := Dropped;
    case Accept(payload) =>
      store.Save(payload, outcome);
      r := Reply(200, OkBody());
  }
}

=== FILE: tray_sync.dfy ===
/**
 * The tray application's copy of the sync loop (`ClipboardSync`): the same
 * three variables as object fields, plus `running`, `paused` and the status
 * text shown in the tray menu. Menu actions (pause/resume, quit) and loop
 * iterations are modelled as one sequence of events.
 */
module TraySync {
  import opened Wrappers
  import opened JsonValue
  import opened Http
  import opened ClipStore
  import opened StoreServer
  import opened TrayServer
  import opened SyncEngine

  const Watching: string := "Watching clipboard..."
  const Ellipsis: string := "..."
  const CheckMark: string := " \U{2713}"

  /** Python's `in` on strings: `part` occurs somewhere in `s`. */
  predicate Contains(s: string, part: string)
    decreases |s|
  {
    part <= s || (s != [] && Contains(s[1..], part))
  }

  /** The decimal digits of a natural number, as `str()` writes them. */
  function DecimalText(n: nat): string
    decreases n
  {
    var digit := [('0' as int + n % 10) as char];
    if n < 10 then digit else DecimalText(n / 10) + digit
  }

  /**
   * `str()` of the pulled clip's `type` value as it appears in the status:
   * exact for strings, null, booleans and integers; see README for the rest.
   */
  function TypeLabel(j: Json): string {
    match j
    case JStr(s) => s
    case JNull => "None"
    case JBool(b) => if b then "True" else "False"
    case JInt(i) => if i < 0 then "-" + DecimalText(-i) else DecimalText(i)
    case _ => ""
  }

  /** `f"Error: {str(e)[:30]}"`. */
  function ErrorStatus(message: string): string {
    "Error: " + message[..if |message| < 30 then |message| else 30]
  }

  /** The status text at the end of an iteration that started with `status` and ended as `r` says. */
  function StatusAfter(status: string, r: TickResult): string {
    if r.error.Some? then ErrorStatus(r.error.value)
    else
      var afterPush :=
        match r.push
        case NoPush => status
        case Pushed(k, ok) => if ok then "Sent " + KindName(k) + CheckMark else "Pushing " + KindName(k) + Ellipsis;
      var afterPull := if r.pullKind.Some? then "Received " + TypeLabel(r.pullKind.value) + CheckMark else afterPush;
      if Contains(afterPull, Ellipsis) then afterPull else Watching
  }

  /** The object's fields as a value. */
  datatype TrayView = TrayView(running: bool, paused: bool, vars: SyncVars, status: string)

  /** What happens next: a pass of the loop body, or a menu action. */
  datatype Event = Iteration(input: TickInput) | TogglePause | Quit

  /** The effect of one event. */
  function Apply(h: Hasher, v: TrayView, e: Event): TrayView {
    match e
    case Iteration(t) =>
      if v.paused then v
      else
        var r := Step(h, v.vars, t);
        v.(vars := r.vars, status := StatusAfter(v.status, r))
    case TogglePause => v.(paused := !v.paused, status := if !v.paused then "Paused" else Watching)
    case Quit => v.(running := false)
  }

  /** The effect of a run of events: once `running` is false the loop has ended and nothing more happens. */
  function RunEvents(h: Hasher, v: TrayView, es: seq<Event>): TrayView
    decreases |es|
  {
    if es == [] then v
    else
      var before := RunEvents(h, v, es[..|es| - 1]);
      if before.running then Apply(h, before, es[|es| - 1]) else before
  }

  /** A run of loop passes with no menu action in between. */
  function Iterations(ts: seq<TickInput>): (es: seq<Event>)
    ensures |es| == |ts|
    ensures forall i :: 0 <= i < |ts| ==> es[i] == Iteration(ts[i])
  {
    seq(|ts|, i requires 0 <= i < |ts| => Iteration(ts[i]))
  }

  /** A string ends with what it ends with, so it contains it. */
  lemma {:induction false} ContainsSuffix(prefix: string, part: string)
    ensures Contains(prefix + part, part)
    decreases |prefix|
  {
    if prefix != [] {
      assert (prefix + part)[1..] == prefix[1..] + part;
      ContainsSuffix(prefix[1..], part);
    }
  }

  /**
   * An iteration that ends without an exception leaves a status containing
   * "...": either the one it set already does, or it is replaced by
   * "Watching clipboard...".
   */
  lemma CleanIterationStatus(status: string, r: TickResult)
    requires r.error.None?
    ensures Contains(StatusAfter(status, r), Ellipsis)
  {
    ContainsSuffix("Watching clipboard", Ellipsis);
    assert "Watching clipboard" + Ellipsis == Watching;
  }

  /** A caught exception shows "Error: " followed by the first 30 characters of its message (all of it when shorter). */
  lemma ErrorIterationStatus(status: string, r: TickResult)
    requires r.error.Some?
    ensures "Error: " <= StatusAfter(status, r)
    ensures |StatusAfter(status, r)| <= |"Error: "| + 30
    ensures StatusAfter(status, r)[|"Error: "|..] <= r.error.value
    ensures StatusAfter(status, r) ==
      "Error: " + r.error.value[..if |r.error.value| < 30 then |r.error.value| else 30]
  {
  }

  /**
   * A failed push with nothing pulled leaves "Pushing <kind>..." on display:
   * it already contains "...", so it is not replaced.
   */
  lemma FailedPushStatusStays(status: string, r: TickResult)
    requires r.push.Pushed? && !r.push.ok && r.pullKind.None? && r.error.None?
    ensures StatusAfter(status, r) == "Pushing " + KindName(r.push.kind) + Ellipsis
  {
    ContainsSuffix("Pushing " + KindName(r.push.kind), Ellipsis);
  }

  /** While paused an iteration changes nothing, the three sync variables included. */
  lemma {:induction false} PausedRunChangesNothing(h: Hasher, v: TrayView, ts: seq<TickInput>)
    requires v.paused
    ensures RunEvents(h, v, Iterations(ts)) == v
    decreases |ts|
  {
    if ts != [] {
      assert Iterations(ts)[..|ts| - 1] == Iterations(ts[..|ts| - 1]);
      PausedRunChangesNothing(h, v, ts[..|ts| - 1]);
    }
  }

  /** Pausing shows "Paused", resuming shows "Watching clipboard...", and nothing else changes. */
  lemma TogglePauseFlips(h: Hasher, v: TrayView)
    ensures Apply(h, v, TogglePause).paused == !v.paused
    ensures Apply(h, v, TogglePause).status == (if v.paused then Watching else "Paused")
    ensures Apply(h, v, TogglePause).vars == v.vars && Apply(h, v, TogglePause).running == v.running
    ensures Apply(h, Apply(h, v, TogglePause), TogglePause).paused == v.paused
  {
  }

  /** Once `running` is false the loop has ended: no later event changes anything. */
  lemma {:induction false} StoppedStaysStopped(h: Hasher, v: TrayView, es: seq<Event>)
    requires !v.running
    ensures RunEvents(h, v, es) == v
    decreases |es|
  {
    if es != [] {
      StoppedStaysStopped(h, v, es[..|es| - 1]);
    }
  }

  /** Running two stretches of events one after the other is running them together. */
  lemma {:induction false} RunEventsAppend(h: Hasher, v: TrayView, a: seq<Event>, b: seq<Event>)
    ensures RunEvents(h, v, a + b) == RunEvents(h, RunEvents(h, v, a), b)
    decreases |b|
  {
    if b == [] {
      assert a + b == a;
    } else {
      assert (a + b)[..|a + b| - 1] == a + b[..|b| - 1];
      RunEventsAppend(h, v, a, b[..|b| - 1]);
    }
  }

  /**
   * Quit ends the loop: after it, whatever else happens, `running` stays
   * false and the sync variables and status are those reached before it.
   */
  lemma QuitEndsLoop(h: Hasher, v: TrayView, before: seq<Event>, after: seq<Event>)
    ensures var end := RunEvents(h, v, before + [Quit] + after);
      var reached := RunEvents(h, v, before);
      && !end.running
      && end.vars == reached.vars && end.status == reached.status && end.paused == reached.paused
  {
    RunEventsAppend(h, v, before + [Quit], after);
    RunEventsAppend(h, v, before, [Quit]);
    assert RunEvents(h, RunEvents(h, v, before), [Quit]) == RunEvents(h, v, before).(running := false) by {
      assert [Quit][..0] == [];
    }
    StoppedStaysStopped(h, RunEvents(h, v, before + [Quit]), after);
  }

  /**
   * The tray's guards and updates are the standalone engine's: a run of
   * iterations while running and not paused moves the three variables
   * exactly as the same ticks move them in the standalone loop.
   */
  lemma {:induction false} TrayMatchesEngine(h: Hasher, v: TrayView, ts: seq<TickInput>)
    requires v.running && !v.paused
    ensures RunEvents(h, v, Iterations(ts)).vars == Steps(h, v.vars, ts)
    ensures RunEvents(h, v, Iterations(ts)).running && !RunEvents(h, v, Iterations(ts)).paused
    decreases |ts|
  {
    if ts != [] {
      var es := Iterations(ts);
      assert es[..|ts| - 1] == Iterations(ts[..|ts| - 1]);
      TrayMatchesEngine(h, v, ts[..|ts| - 1]);
      var before := RunEvents(h, v, es[..|ts| - 1]);
      assert RunEvents(h, v, es) == Apply(h, before, Iteration(ts[|ts| - 1]));
      IterationMovesVars(h, before, ts[|ts| - 1]);
    }
  }

  /** An unpaused pass moves the variables by one engine tick and leaves `running` and `paused` alone. */
  lemma IterationMovesVars(h: Hasher, v: TrayView, t: TickInput)
    requires !v.paused
    ensures Apply(h, v, Iteration(t)).vars == Step(h, v.vars, t).vars
    ensures Apply(h, v, Iteration(t)).running == v.running && !Apply(h, v, Iteration(t)).paused
  {
  }

  /**
   * The embedded server stores a post without `source` under source
   * "unknown", so the tray loop never pulls it either.
   */
  lemma SourcelessEmbeddedPostNotPulled(h: Hasher, v: SyncVars, text: string, req: PostRequest, now: real, getTarget: string, t: TickInput)
    requires UrlPath(req.target) == "/clip" && req.contentLength > 0 && req.body == Some(SourcelessBody(text))
    requires UrlPath(getTarget) in ClipPaths
    ensures ValidateEmbedded(req, now).Accept? && ValidateEmbedded(req, now).payload["source"] == JStr("unknown")
    ensures var fetched := Fetched(HandleGet(getTarget, LoadStore(Holds(JObj(ValidateEmbedded(req, now).payload)))));
      Step(h, v, t.(fetched := fetched)).pullKind.None?
  {
    // The key is absent, so `.get("source", "unknown")` supplies the default.
  }

  /** The tray application's sync state. */
  class ClipboardSync {
    var running: bool
    var paused: bool
    var lastLocalHash: string
    var lastServerHash: string
    var lastSource: LastSource
    var status: string
    const hash: Hasher

    constructor (h: Hasher)
      ensures hash == h && View() == TrayView(true, false, Initial, "Starting...")
    {
      hash := h;
      running, paused := true, false;
      lastLocalHash, lastServerHash, lastSource := "", "", Unset;
      status := "Starting...";
    }

    function Vars(): SyncVars
      reads this
    {
      SyncVars(lastLocalHash, lastServerHash, lastSource)
    }

    function View(): TrayView
      reads this
    {
      TrayView(running, paused, Vars(), status)
    }

    /**
     * One pass of the `while self.running` body. Paused: nothing changes.
     * Otherwise the variables move as in the standalone tick, the status
     * follows the branches taken, and an exception ends the pass with an
     * error status.
     */
    method SyncIteration(t: TickInput)
      modifies this
      ensures running == old(running) && paused == old(paused)
      ensures old(paused) ==> Vars() == old(Vars()) && status == old(status)
      ensures !old(paused) ==> Vars() == Step(hash, old(Vars()), t).vars
      ensures !old(paused) ==> status == StatusAfter(old(status), Step(hash, old(Vars()), t))
    {
      if paused {
        return;
      }
      var localHash := if t.local.Some? then hash(t.local.value.data) else "";
      if localHash != "" && localHash != lastLocalHash && lastSource != Server {
        var clipType := KindName(t.local.value.kind);
        status := "Pushing " + clipType + Ellipsis;
        if t.pushOk {
          status := "Sent " + clipType + CheckMark;
          lastServerHash := hash(t.local.value.data);
        }
        lastLocalHash := localHash;
        lastSource := Local;
      }
      if t.fetched.Some? && Truthy(t.fetched.value) {
        var serverClip := t.fetched.value;
        if !serverClip.JObj? {
          status := ErrorStatus(NoAttribute(serverClip, "get"));
          return;
        }
        var serverData := GetOr(serverClip.fields, "data", JStr(""));
        if !serverData.JStr? {
          status := ErrorStatus(NoAttribute(serverData, "encode"));
          return;
        }
        var serverHash := hash(serverData.s);
        var serverSource := GetOr(serverClip.fields, "source", JStr(""));
        if serverHash != lastServerHash && serverSource == JStr("phone") {
          var clipType := GetOr(serverClip.fields, "type", JNull);
          status := "Pulling " + TypeLabel(clipType) + Ellipsis;
          if clipType == JStr("text") || clipType == JStr("image") {
            if t.writeError.Some? {
              status := ErrorStatus(t.writeError.value);
              return;
            }
          }
          status := "Received " + TypeLabel(clipType) + CheckMark;
          lastServerHash := serverHash;
          lastLocalHash := serverHash;
          lastSource := Server;
        }
      }
      if !Contains(status, Ellipsis) {
        status := Watching;
      }
    }

    /** The "Pause"/"Resume" menu item. */
    method TogglePauseItem()
      modifies this
      ensures paused == !old(paused)
      ensures status == (if paused then "Paused" else Watching)
      ensures running == old(running) && Vars() == old(Vars())
    {
      paused := !paused;
      status := if paused then "Paused" else Watching;
    }

    /** The "Quit" menu item: the loop condition fails from now on. */
    method QuitItem()
      modifies this
      ensures !running
      ensures paused == old(paused) && status == old(status) && Vars() == old(Vars())
    {
      running := false;
    }

    /** One event: a loop pass or a menu action. */
    method Handle(e: Event)
      modifies this
      ensures View() == Apply(hash, old(View()), e)
    {
      match e
      case Iteration(t) => SyncIteration(t);
      case TogglePause => TogglePauseItem();
      case Quit => QuitItem();
    }

    /** Loop passes and menu actions in the order given, for as long as `running` holds. */
    method Run(events: seq<Event>)
      modifies this
      ensures View() == RunEvents(hash, old(View()), events)
    {
      var i := 0;
      while i < |events| && running
        invariant 0 <= i <= |events|
        invariant View() == RunEvents(hash, old(View()), events[..i])
      {
        assert events[..i + 1][..i] == events[..i];
        Handle(events[i]);
        i := i + 1;
      }
      if i < |events| {
        RunEventsAppend(hash, old(View()), events[..i], events[i..]);
        assert events[..i] + events[i..] == events;
        StoppedStaysStopped(hash, View(), events[i..]);
      } else {
        assert events[..i] == events;
      }
    }
  }
}

=== FILE: wrappers.dfy ===
/** Optional values, used for "nothing read", "fetch failed" and "no exception". */
module Wrappers {

  datatype Option<+T> = None | Some(value: T)
}
